=== FILE: README.md ===
# Background scroll trigger — a Dafny model

The page pins a hero region and scrubs a 380-frame pre-rendered image
sequence on a canvas as the visitor scrolls. At the same time it fades four
page sections (nav, header, contents, outro) and moves the last three of
them in depth. This
project models the arithmetic and the small state machines behind that
scroll scene, all from `src/main.js`. It covers five parts:

- **Frame paths** (`frame_paths.dfy`, module `FramePaths`). `currentFrame(index)`
  writes the index in decimal and pads it to four digits with `padStart`. The
  result sits inside `/Background/Background….webp`. The module also holds the
  frame count, 380. `ParseFramePath` is an inverse, used to state that the
  formatter loses nothing.
- **Preloader** (`preloader.dfy`, module `Preloader`). The request loop asks
  for one image per frame. The `imagesToLoad` countdown is decremented by both
  the `load` and `error` handlers. When it reaches zero it runs
  `render(); setScrollTrigger()`. Settle events are an explicit sequence.
- **Cover fit** (`cover_fit.dfy`, module `CoverFit`). The render step draws an
  image into a rectangle that covers the canvas. It keeps the image's aspect
  and centres the overflow. The guard skips any frame that is missing, still
  loading, or has no natural size.
- **Scroll mapper** (`scroll_mapper.dfy`, module `ScrollMapper`). This is the
  body of `onUpdate`. A progress value becomes the frame index
  `Math.round(progress * 379)` plus one (opacity, translateZ) update per
  section. A section whose transform is left untouched gets `None`.
- **Scene** (`scene.dfy`, module `Scene`). This is the page state those
  updates are applied to. `gsap.set` changes only the properties it is given.

All arithmetic is over exact `real`s. `Math.round` is `Floor(x + 0.5)`, which
matches JavaScript's round-half-up for every input. The progress functions
are total over all reals, because the code does not clamp progress. Range
facts are stated for progress in [0, 1], which is the range the scroll
library delivers.

Continuity at the breakpoints is stated as a Lipschitz bound. For example,
`|f(p) - f(q)| <= 20 |p - q|` for the 0.05-wide fades. This implies
continuity at every breakpoint at once.

A few consequences of the code that are easy to miss:

- The frames are numbered from `Background0000` to `Background0379`.
- Below progress 0.35, where the contents are hidden, their depth keeps
  following the linear formula, down to -2750 at progress 0. Only past 0.65
  do they rest, at 500.
- The outro depth jumps from 0 to -1000 at progress 0.75. The opacity is 0 on
  both sides, so the jump is invisible (`ScrollMapper.OutroDepth`).
- All breakpoints are fixed constants in the callback.

## Model

| member | source | states |
|---|---|---|
| FramePaths.ToDecimal | src/main.js:39 | `index.toString()` is a canonical decimal numeral: at least one digit, all digits, no leading zero |
| FramePaths.ValueOfDecimal | src/main.js:39 | the numeral `toString` produces reads back as the same number |
| FramePaths.PadStart | src/main.js:39 | `padStart` yields as many characters as the larger of the width and the input length: the original string at the end, fill characters before it |
| FramePaths.PaddedIndex | src/main.js:39 | the padded index is never shorter than 4 characters, and exactly 4 iff the index is below 10000 |
| FramePaths.PaddedIndexDigits | src/main.js:39 | the padded index is all digits and its value is the index |
| FramePaths.FramePath | src/main.js:39 | `currentFrame(index)` starts with `/Background/Background`, ends with `.webp`, and has at least 4 characters between them |
| FramePaths.FramePathDigits | src/main.js:39 | the characters between the prefix and the extension are digits that read back as the index |
| FramePaths.DecimalWidth | src/main.js:39 | a numeral has at most k digits exactly when its value is below 10^k, so padding to 4 leaves every index from 1000 up unchanged |
| FramePaths.FramePathInjective | src/main.js:39 | different frame indices give different URLs |
| FramePaths.ParseFramePathRoundTrip | src/main.js:39 | reading a frame URL back gives its index |
| FramePaths.ParseFramePathSound | src/main.js:39 | every URL the reader accepts is exactly the URL of the index it returns |
| Preloader.Start | src/main.js:43 | before any request settles, one request per frame is outstanding |
| Preloader.OnSettle | src/main.js:45-51 | each settle lowers the count by exactly one; it emits render and the trigger setup when the count was 1 before it, and nothing otherwise |
| Preloader.AfterCounts | src/main.js:43-46 | after k settle events the count is the frame count minus k, whatever their kinds |
| Preloader.Run | src/main.js:45-58 | in any run, event i emits render and the trigger setup iff it is the event that settles the last outstanding request, and otherwise emits nothing |
| Preloader.RunIgnoresOutcome | src/main.js:55-58 | an error counts exactly as a load: runs of equal length emit identical effects |
| Preloader.ExactlyOnce | src/main.js:43-58 | for frameCount settles in any mix of loads and errors, the completion action fires once, on the last event, never before, and the count ends at 0 |
| Preloader.NotBeforeAllSettled | src/main.js:45-51 | with fewer settles than frames, `onLoad` emits neither render nor the trigger setup |
| Preloader.RequestFrames | src/main.js:53-61 | the load loop requests one image per frame, in order, image i from `currentFrame(i)` |
| Preloader.FirstAndLastPaths | src/main.js:38-39 | the first and last frame URLs are `/Background/Background0000.webp` and `/Background/Background0379.webp` |
| Preloader.RequestSceneFrames | src/main.js:38-61 | the scene requests 380 pairwise distinct URLs, from `/Background/Background0000.webp` to `/Background/Background0379.webp` |
| CoverFit.Cover | src/main.js:72-90 | the draw rectangle covers the canvas, keeps the image aspect and is centred with non-positive offsets; it fits the width iff the image is narrower (in aspect) than the canvas, the height iff wider, both iff equal; the other dimension then overflows strictly |
| CoverFit.CoverScalesByLargerRatio | src/main.js:72-90 | cover fit is uniform scaling by max(canvasWidth/naturalWidth, canvasHeight/naturalHeight) |
| CoverFit.CoverIsSmallest | src/main.js:77-90 | every aspect-preserving rectangle that covers the canvas is at least as large as the cover-fit one, so the crop is minimal |
| CoverFit.Render | src/main.js:63-93 | a rectangle is drawn iff the frame exists, is complete and has a positive natural width, and then it is the cover-fit rectangle and covers the canvas |
| ScrollMapper.Round | src/main.js:109 | `Math.round` returns the integer within half a unit below and strictly less than half above |
| ScrollMapper.RoundUnique | src/main.js:109 | that integer is unique, so ties go up |
| ScrollMapper.RoundMonotone | src/main.js:109 | rounding is monotone |
| ScrollMapper.FrameIndex | src/main.js:109 | for progress in [0,1] the frame index lies in [0, 379] and is the nearest integer to progress * 379 |
| ScrollMapper.FrameIndexMonotone | src/main.js:109 | scrolling further never selects an earlier frame |
| ScrollMapper.FrameIndexEnds | src/main.js:109 | progress 0, 0.5 and 1 select frames 0, 190 and 379 |
| ScrollMapper.Ramp | src/main.js:125-158 | the clamped fade ratio `min((p - start)/(end - start), 1)` shared by the fades at lines 125, 139, 144 and 158, floored at 0, lies in [0,1], is 0 up to the start and 1 from the end on |
| ScrollMapper.RampMonotone | src/main.js:125-158 | the fade ratio of lines 125, 139, 144 and 158 never decreases as progress grows |
| ScrollMapper.RampLipschitz | src/main.js:125-158 | the fade ratio of lines 125, 139, 144 and 158 changes by at most the progress change divided by the ramp length |
| ScrollMapper.NavOpacity | src/main.js:113-117 | for progress >= 0 the nav opacity is 1 minus the clamped ramp over [0, 0.1], so it lies in [0,1] and is 0 from 0.1 on |
| ScrollMapper.NavNonIncreasing | src/main.js:113-117 | the nav opacity never increases with progress |
| ScrollMapper.NavFadesStrictly | src/main.js:113-114 | the nav opacity is 1 at the top and strictly decreasing over [0, 0.1] |
| ScrollMapper.NavContinuous | src/main.js:113-117 | the nav opacity is 10-Lipschitz, so it is continuous at 0.1 |
| ScrollMapper.HeaderUpdate | src/main.js:120-131 | the header opacity is 1 minus the clamped ramp over [0.2, 0.25]; a transform is emitted iff progress <= 0.25, with depth running linearly from 0 to 500 over [0, 0.25] |
| ScrollMapper.HeaderOpacityNonIncreasing | src/main.js:120-131 | the header opacity never increases with progress |
| ScrollMapper.HeaderOpacityContinuous | src/main.js:123-130 | the header opacity is 20-Lipschitz: continuous at 0.2 and 0.25 |
| ScrollMapper.HeaderDepthIncreasing | src/main.js:120-122 | while emitted, the header depth is strictly increasing, 0 at the top and 500 at 0.25 |
| ScrollMapper.ContentsUpdate | src/main.js:134-150 | the contents opacity is the minimum of the fade-in ramp over [0.35, 0.4] and the fade-out ramp over [0.6, 0.65]: in [0,1], 0 outside (0.35, 0.65), 1 on [0.4, 0.6]; the depth interpolates from -1000 towards 500 with the ratio capped at 1 |
| ScrollMapper.ContentsOpacityRisesThenFalls | src/main.js:137-146 | the contents opacity rises up to 0.5 and falls after it |
| ScrollMapper.ContentsOpacityContinuous | src/main.js:137-149 | the contents opacity is 20-Lipschitz: continuous at 0.35, 0.4, 0.6 and 0.65 |
| ScrollMapper.ContentsDepthNonDecreasing | src/main.js:134-150 | the contents depth never decreases; it is -1000 at 0.35 and 500 from 0.65 on |
| ScrollMapper.ContentsDepthContinuous | src/main.js:135-149 | the contents depth is 5000-Lipschitz, so resting at 500 past 0.65 makes no jump |
| ScrollMapper.OutroUpdate | src/main.js:153-164 | the outro opacity is the clamped ramp over [0.75, 0.8]; before 0.75 the depth is 0, from 0.75 on it interpolates from -1000 at 0.75 to 0 at 1 |
| ScrollMapper.OutroOpacityNonDecreasing | src/main.js:153-163 | the outro opacity never decreases with progress |
| ScrollMapper.OutroOpacityContinuous | src/main.js:156-163 | the outro opacity is 20-Lipschitz: continuous at 0.75 and 0.8 |
| ScrollMapper.OutroDepth | src/main.js:153-161 | from 0.75 on the outro depth strictly increases; it is (0, -1000) at 0.75 and (1, 0) at 1 |
| ScrollMapper.OnUpdate | src/main.js:107-165 | one update sets no nav transform and always sets the contents and outro transforms; for progress in [0,1] the frame is in range and every opacity lies in [0,1] |
| ScrollMapper.SceneAtTop | src/main.js:107-165 | at progress 0: frame 0, nav 1, header opacity 1 at depth 0, contents hidden, outro hidden at 0 |
| ScrollMapper.SceneHalfway | src/main.js:107-165 | at progress 0.5: frame 190, contents fully visible at depth -250, nav, header and outro hidden, header transform left alone |
| ScrollMapper.SceneAtEnd | src/main.js:107-165 | at progress 1: frame 379, contents hidden at rest (500), outro fully visible at depth 0 |
| Scene.Initial | src/main.js:42-97 | before any scroll the frame is 0 and the contents and outro are hidden at depth 0 |
| Scene.Set | src/main.js:128-130 | `gsap.set` changes exactly the properties it is passed: the opacity always, the depth only when a transform is given; an omitted transform keeps the section's depth |
| Scene.Scroll | src/main.js:107-165 | an update moves to the progress's frame; it sets the nav opacity, the contents and the outro to the mapper's values, and the header too up to 0.25; it never changes the nav depth, and past 0.25 hides the header while keeping its depth; for progress in [0,1] every opacity lies in [0,1] |
| Scene.ScrollForgetsHistory | src/main.js:107-165 | two pages scrolled to the same progress agree everywhere except the nav depth and, past 0.25, the header depth |
| Scene.ScrollIdempotent | src/main.js:107-165 | delivering the same progress twice has the effect of delivering it once |
| Scene.LatestProgressWins | src/main.js:120-131 | only the latest progress matters, except that past 0.25 the header keeps the depth from the last update at or below 0.25 |
| Scene.EveryProgressDraws | src/main.js:70-93 | once all 380 frames have loaded with positive sizes, every progress in [0,1] draws a rectangle that covers the canvas |

## Left out

- GSAP and Lenis wiring is third-party behaviour. This covers plugin
  registration, the ticker, `lagSmoothing`, `fps`, the pin/scrub trigger
  configuration with its `5 * innerHeight` end, and `ScrollTrigger.refresh`
  (`src/main.js:6-14`, `99-106`, `172`). The progress value is a parameter.
- DOM and canvas plumbing is left out. This includes `querySelector`,
  `getContext`, `clearRect`, `drawImage` and the `setCanvasSize`
  device-pixel-ratio backing store with its transform reset
  (`src/main.js:16-35`, `68`, `92`). The model returns the values that would
  be passed.
- The resize listener (`src/main.js:169-173`) only re-runs canvas sizing,
  `render` and the trigger refresh, so it is not modelled separately. A
  redraw at a new size is `CoverFit.Render` with the new canvas size and the
  unchanged frame. The listener is registered while the frames are still
  loading, so a resize can render (frame 0, once that image is complete)
  before the countdown reaches zero; the preloader lemmas speak only about
  what `onLoad` emits.
- Image fetching is asynchronous I/O. The settle events are an explicit
  sequence, in arrival order.
- IEEE-754 rounding, NaN and Infinity are not modelled. All arithmetic is
  exact.
- CoverFit.Cover: requires positive natural and canvas sizes. The code does
  not guard a zero `naturalHeight` or a zero-sized canvas. In floating point
  these give an infinite or NaN aspect, which the model does not follow.
- CoverFit.Render: requires a positive natural height whenever the frame's
  natural width is positive, for the same reason. A complete image with a
  zero natural width is admitted whatever its height, and is not drawn.
- The nav and header styles before the first scroll come from the
  stylesheet. They are parameters of `Scene.Initial`.
- The second variant of the script (790 jpg frames, with an unclamped
  contents fade) is not part of this model.

=== FILE: cover_fit.dfy ===
/**
 * The canvas renderer's geometry: an image is scaled uniformly so that it
 * covers the whole canvas, and the overflow is cropped evenly on both sides.
 * All sizes are CSS pixels.
 */
module CoverFit {
  import opened Options

  /** Where `drawImage` puts the image: top-left corner and size. */
  datatype Rect = Rect(x: real, y: real, width: real, height: real)

  /** What the renderer reads off a frame's image element. */
  datatype Image = Image(complete: bool, naturalWidth: nat, naturalHeight: nat)

  function Max(a: real, b: real): real {
    if a >= b then a else b
  }

  /**
   * The draw rectangle of a `naturalWidth` x `naturalHeight` image on a
   * `canvasWidth` x `canvasHeight` canvas. An image narrower than the canvas
   * (in aspect) is scaled to the canvas width and centred vertically;
   * otherwise it is scaled to the canvas height and centred horizontally.
   */
  function Cover(naturalWidth: real, naturalHeight: real, canvasWidth: real, canvasHeight: real): (r: Rect)
    requires naturalWidth > 0.0 && naturalHeight > 0.0
    requires canvasWidth > 0.0 && canvasHeight > 0.0
    // the image covers the canvas
    ensures r.width >= canvasWidth && r.height >= canvasHeight
    // the image keeps its aspect ratio
    ensures r.width * naturalHeight == r.height * naturalWidth
    // the overflow is split evenly, so the image is centred and starts at or above/left of the origin
    ensures r.x == (canvasWidth - r.width) / 2.0 <= 0.0
    ensures r.y == (canvasHeight - r.height) / 2.0 <= 0.0
    // the image is fitted to the width exactly when it is narrower than the canvas
    ensures naturalWidth / naturalHeight < canvasWidth / canvasHeight <==> r.width == canvasWidth && r.height > canvasHeight
    ensures naturalWidth / naturalHeight > canvasWidth / canvasHeight <==> r.height == canvasHeight && r.width > canvasWidth
    ensures naturalWidth / naturalHeight == canvasWidth / canvasHeight <==> r.width == canvasWidth && r.height == canvasHeight
  {
    var imageAspect := naturalWidth / naturalHeight;
    var canvasAspect := canvasWidth / canvasHeight;
    if imageAspect < canvasAspect then
      var drawWidth := canvasWidth;
      var drawHeight := drawWidth / imageAspect;
      Rect(0.0, (canvasHeight - drawHeight) / 2.0, drawWidth, drawHeight)
    else
      var drawHeight := canvasHeight;
      var drawWidth := drawHeight * imageAspect;
      Rect((canvasWidth - drawWidth) / 2.0, 0.0, drawWidth, drawHeight)
  }

  /**
   * Cover-fit is uniform scaling by the larger of the two axis ratios: the
   * least factor at which the scaled image still covers the canvas.
   */
  lemma CoverScalesByLargerRatio(nw: real, nh: real, cw: real, ch: real)
    requires nw > 0.0 && nh > 0.0 && cw > 0.0 && ch > 0.0
    ensures Cover(nw, nh, cw, ch).width == nw * Max(cw / nw, ch / nh)
    ensures Cover(nw, nh, cw, ch).height == nh * Max(cw / nw, ch / nh)
  {}

  /**
   * No smaller aspect-preserving rectangle covers the canvas: cover-fit crops
   * as little of the image as possible.
   */
  lemma CoverIsSmallest(nw: real, nh: real, cw: real, ch: real, w: real, h: real)
    requires nw > 0.0 && nh > 0.0 && cw > 0.0 && ch > 0.0
    requires w * nh == h * nw
    requires w >= cw && h >= ch
    ensures w >= Cover(nw, nh, cw, ch).width
    ensures h >= Cover(nw, nh, cw, ch).height
  {}

  /** An image that reports a natural width also reports a natural height. */
  predicate Sized(image: Image) {
    image.naturalWidth > 0 ==> image.naturalHeight > 0
  }

  /** The renderer's guard: the frame exists, has finished loading and has a natural size. */
  predicate Drawable(images: seq<Image>, frame: int) {
    0 <= frame < |images| && images[frame].complete && images[frame].naturalWidth > 0
  }

  /**
   * `render`: the rectangle the current frame is drawn into, or `None` when
   * the frame is absent, still loading, or failed to load (the canvas is only
   * cleared).
   */
  function Render(images: seq<Image>, frame: int, canvasWidth: real, canvasHeight: real): (r: Option<Rect>)
    requires canvasWidth > 0.0 && canvasHeight > 0.0
    requires 0 <= frame < |images| ==> Sized(images[frame])
    ensures r.Some? <==> Drawable(images, frame)
    ensures r.Some? ==> r.value.width >= canvasWidth && r.value.height >= canvasHeight
    ensures r.Some? ==>
              r.value == Cover(images[frame].naturalWidth as real, images[frame].naturalHeight as real,
                               canvasWidth, canvasHeight)
  {
    if 0 <= frame < |images| && images[frame].complete && images[frame].naturalWidth > 0 then
      var image := images[frame];
      Some(Cover(image.naturalWidth as real, image.naturalHeight as real, canvasWidth, canvasHeight))
    else
      None
  }
}

=== FILE: frame_paths.dfy ===
/**
 * The URLs of the background frames: `currentFrame(index)` renders the index
 * in decimal, left-pads it with '0' to four characters and wraps it in
 * `/Background/Background` … `.webp`.
 */
module FramePaths {
  import opened Options

  /** Number of pre-rendered frames in the background sequence. */
  const FrameCount: nat := 380

  /** Width the index is padded to. */
  const IndexWidth: nat := 4

  const Prefix: string := "/Background/Background"
  const Extension: string := ".webp"

  predicate IsDigit(c: char) {
    '0' <= c <= '9'
  }

  predicate AllDigits(s: string) {
    forall i :: 0 <= i < |s| ==> IsDigit(s[i])
  }

  function DigitValue(c: char): nat
    requires IsDigit(c)
  {
    c as int - '0' as int
  }

  function DigitChar(d: nat): (c: char)
    requires d < 10
    ensures IsDigit(c) && DigitValue(c) == d
  {
    ('0' as int + d) as char
  }

  function Pow10(k: nat): (r: nat)
    ensures r >= 1
  {
    if k == 0 then 1 else 10 * Pow10(k - 1)
  }

  /** The numeric value of a string of decimal digits (leading zeros allowed). */
  function Value(s: string): nat
    requires AllDigits(s)
  {
    if |s| == 0 then 0 else Value(s[..|s| - 1]) * 10 + DigitValue(s[|s| - 1])
  }

  /** A canonical decimal numeral: at least one digit, and no leading zero unless it is "0". */
  predicate Canonical(s: string) {
    |s| >= 1 && AllDigits(s) && (|s| > 1 ==> s[0] != '0')
  }

  /** `n.toString()` for a non-negative integer `n`. */
  function ToDecimal(n: nat): (s: string)
    ensures Canonical(s)
  {
    if n < 10 then [DigitChar(n)] else ToDecimal(n / 10) + [DigitChar(n % 10)]
  }

  function Repeat(c: char, k: nat): (s: string)
    ensures |s| == k
    ensures forall i :: 0 <= i < k ==> s[i] == c
  {
    if k == 0 then [] else [c] + Repeat(c, k - 1)
  }

  /** `s.padStart(width, fill)` for a one-character `fill`. */
  function PadStart(s: string, width: nat, fill: char): (r: string)
    ensures |r| == if |s| >= width then |s| else width
    ensures r[|r| - |s|..] == s
    ensures forall i :: 0 <= i < |r| - |s| ==> r[i] == fill
  {
    if |s| >= width then s else Repeat(fill, width - |s|) + s
  }

  /**
   * The zero-padded index that appears in a frame's file name: never shorter
   * than four characters, and exactly four precisely for the indices below 10000.
   */
  function PaddedIndex(index: nat): (s: string)
    ensures |s| >= IndexWidth
    ensures |s| == IndexWidth <==> index < 10000
  {
    DecimalWidth(index, IndexWidth);
    assert Pow10(IndexWidth) == 10000;
    PadStart(ToDecimal(index), IndexWidth, '0')
  }

  /** The padded index is a string of digits whose value is the index. */
  lemma PaddedIndexDigits(index: nat)
    ensures AllDigits(PaddedIndex(index))
    ensures Value(PaddedIndex(index)) == index
  {
    var s := ToDecimal(index);
    ValueOfDecimal(index);
    if |s| < IndexWidth {
      ValueIgnoresLeadingZeros(IndexWidth - |s|, s);
    }
  }

  /**
   * `currentFrame(index)`: the URL the index-th frame is fetched from: the
   * fixed prefix, at least four characters of padded index, the extension.
   */
  function FramePath(index: nat): (url: string)
    ensures |url| >= |Prefix| + IndexWidth + |Extension|
    ensures url[..|Prefix|] == Prefix && url[|url| - |Extension|..] == Extension
  {
    Prefix + PaddedIndex(index) + Extension
  }

  /** The characters between prefix and extension are digits that read back as the index. */
  lemma FramePathDigits(index: nat)
    ensures AllDigits(FramePath(index)[|Prefix|..|FramePath(index)| - |Extension|])
    ensures Value(FramePath(index)[|Prefix|..|FramePath(index)| - |Extension|]) == index
  {
    var url := FramePath(index);
    assert url[|Prefix|..|url| - |Extension|] == PaddedIndex(index);
    PaddedIndexDigits(index);
  }

  lemma {:induction false} ValueOfDecimal(n: nat)
    ensures Value(ToDecimal(n)) == n
    decreases n
  {
    var s := ToDecimal(n);
    if n < 10 {
      assert s[..|s| - 1] == [];
    } else {
      assert s[..|s| - 1] == ToDecimal(n / 10);
      ValueOfDecimal(n / 10);
    }
  }

  /** The canonical numeral of a value is the numeral itself: `ToDecimal` is onto canonical strings. */
  lemma {:induction false} DecimalOfValue(s: string)
    requires Canonical(s)
    ensures ToDecimal(Value(s)) == s
    decreases |s|
  {
    var t := s[..|s| - 1];
    if |s| == 1 {
      assert t == [];
      assert ToDecimal(Value(s)) == [s[0]];
    } else {
      assert t[0] == s[0];
      assert Canonical(t);
      LeadingDigitPositive(t);
      DecimalOfValue(t);
      var v := Value(s);
      assert v / 10 == Value(t) && v % 10 == DigitValue(s[|s| - 1]);
      assert s == t + [s[|s| - 1]];
    }
  }

  lemma {:induction false} LeadingDigitPositive(s: string)
    requires Canonical(s) && s[0] != '0'
    ensures Value(s) >= 1
    decreases |s|
  {
    if |s| > 1 {
      var t := s[..|s| - 1];
      assert t[0] == s[0];
      LeadingDigitPositive(t);
    }
  }

  lemma {:induction false} ValueOfZeros(k: nat)
    ensures AllDigits(Repeat('0', k)) && Value(Repeat('0', k)) == 0
    decreases k
  {
    if k > 0 {
      var z := Repeat('0', k);
      assert z[..k - 1] == Repeat('0', k - 1);
      ValueOfZeros(k - 1);
    }
  }

  /** Leading zeros do not change the value of a numeral. */
  lemma {:induction false} ValueIgnoresLeadingZeros(k: nat, s: string)
    requires AllDigits(s)
    ensures AllDigits(Repeat('0', k) + s)
    ensures Value(Repeat('0', k) + s) == Value(s)
    decreases |s|
  {
    var z := Repeat('0', k);
    if |s| == 0 {
      assert z + s == z;
      ValueOfZeros(k);
    } else {
      var t := s[..|s| - 1];
      assert (z + s)[..|z + s| - 1] == z + t;
      ValueIgnoresLeadingZeros(k, t);
    }
  }

  /** A numeral is no longer than `k` digits exactly when its value is below 10^k. */
  lemma {:induction false} DecimalWidth(n: nat, k: nat)
    requires k >= 1
    ensures |ToDecimal(n)| <= k <==> n < Pow10(k)
    decreases n
  {
    if n >= 10 {
      if k == 1 {
        assert |ToDecimal(n)| >= 2;
      } else {
        DecimalWidth(n / 10, k - 1);
      }
    }
  }

  /** Distinct frames are fetched from distinct URLs. */
  lemma FramePathInjective(i: nat, j: nat)
    requires FramePath(i) == FramePath(j)
    ensures i == j
  {
    FramePathDigits(i);
    FramePathDigits(j);
  }

  /**
   * Reads a frame index back out of a URL: the inverse of `FramePath`. The
   * middle must be the four-digit form, or a longer canonical numeral.
   */
  function ParseFramePath(url: string): (index: Option<nat>)
  {
    if |url| >= |Prefix| + |Extension|
       && url[..|Prefix|] == Prefix
       && url[|url| - |Extension|..] == Extension
    then
      var digits := url[|Prefix|..|url| - |Extension|];
      if |digits| >= IndexWidth && AllDigits(digits) && (|digits| > IndexWidth ==> digits[0] != '0')
      then Some(Value(digits))
      else None
    else None
  }

  lemma ParseFramePathRoundTrip(index: nat)
    ensures ParseFramePath(FramePath(index)) == Some(index)
  {
    var url := FramePath(index);
    var s := ToDecimal(index);
    PaddedIndexDigits(index);
    assert url[..|Prefix|] == Prefix;
    assert url[|url| - |Extension|..] == Extension;
    assert url[|Prefix|..|url| - |Extension|] == PaddedIndex(index);
    if |PaddedIndex(index)| > IndexWidth {
      assert PaddedIndex(index) == s;
    }
  }

  /** A numeral of `k` digits is worth less than 10^k. */
  lemma {:induction false} ValueBelowPower(s: string)
    requires AllDigits(s)
    ensures Value(s) < Pow10(|s|)
    decreases |s|
  {
    if |s| > 0 {
      ValueBelowPower(s[..|s| - 1]);
    }
  }

  /** The last digit of a numeral is its value modulo 10; the rest is its value divided by 10. */
  lemma LastDigit(s: string)
    requires AllDigits(s) && |s| > 0
    ensures Value(s) % 10 == DigitValue(s[|s| - 1])
    ensures Value(s) / 10 == Value(s[..|s| - 1])
  {
    var d := DigitValue(s[|s| - 1]);
    var v := Value(s[..|s| - 1]);
    assert Value(s) == v * 10 + d && 0 <= d < 10;
  }

  /** Two numerals of the same length and value are the same string. */
  lemma {:induction false} ValueInjective(a: string, b: string)
    requires AllDigits(a) && AllDigits(b) && |a| == |b|
    requires Value(a) == Value(b)
    ensures a == b
    decreases |a|
  {
    if |a| > 0 {
      var n := |a| - 1;
      var ta, tb := a[..n], b[..n];
      LastDigit(a);
      LastDigit(b);
      assert DigitValue(a[n]) == DigitValue(b[n]);
      ValueInjective(ta, tb);
      assert a == ta + [a[n]] && b == tb + [b[n]];
    }
  }

  /** Every URL the parser accepts is the URL of the frame it names. */
  lemma ParseFramePathSound(url: string, index: nat)
    requires ParseFramePath(url) == Some(index)
    ensures url == FramePath(index)
  {
    var digits := url[|Prefix|..|url| - |Extension|];
    assert AllDigits(digits) && Value(digits) == index && |digits| >= IndexWidth;
    PaddedIndexDigits(index);
    if |digits| == IndexWidth {
      ValueBelowPower(digits);
      assert Pow10(IndexWidth) == 10000;
      ValueInjective(digits, PaddedIndex(index));
    } else {
      DecimalOfValue(digits);
      assert PaddedIndex(index) == digits;
    }
    assert url == url[..|Prefix|] + digits + url[|url| - |Extension|..];
  }
}

=== FILE: options.dfy ===
/** The conventional optional value: `None` where the scene leaves a property untouched. */
module Options {

  datatype Option<+T> = None | Some(value: T)
}

=== FILE: preloader.dfy ===
/**
 * The frame preloader: one image request per frame, and a countdown of the
 * requests still outstanding that starts the scene exactly once, when the
 * last request has settled.
 */
module Preloader {
  import opened FramePaths

  /** How an image request settles; the `load` and `error` handlers both call `onLoad`. */
  datatype Settle = Loaded | Failed

  /** What `onLoad` does once the countdown reaches zero. */
  datatype Effect = Render | CreateScrollTrigger

  /** The completion action: draw the current frame, then bind the scroll trigger. */
  const Completion: seq<Effect> := [Render, CreateScrollTrigger]

  /** `imagesToLoad`: requests not yet settled. It is a plain number, so extra events drive it below zero. */
  datatype Counter = Counter(imagesToLoad: int)

  /** Before any request settles, one request per frame is outstanding. */
  function Start(frameCount: nat): (c: Counter)
    ensures c.imagesToLoad == frameCount
  {
    Counter(frameCount)
  }

  /** `onLoad`: decrement, and fire the completion action when the count has just become zero. */
  function OnSettle(c: Counter, event: Settle): (r: (Counter, seq<Effect>))
    ensures r.0.imagesToLoad == c.imagesToLoad - 1
    ensures c.imagesToLoad == 1 ==> r.1 == Completion
    ensures c.imagesToLoad != 1 ==> r.1 == []
  {
    var next := Counter(c.imagesToLoad - 1);
    (next, if next.imagesToLoad == 0 then Completion else [])
  }

  /**
   * The effects of a sequence of settle events, one entry per event: the
   * completion action from the event that settles the last outstanding
   * request, nothing from any other event.
   */
  function Run(c: Counter, events: seq<Settle>): (effects: seq<seq<Effect>>)
    ensures |effects| == |events|
    ensures forall i :: 0 <= i < |events| ==> effects[i] == if i + 1 == c.imagesToLoad then Completion else []
    decreases |events|
  {
    if |events| == 0 then []
    else
      var (next, now) := OnSettle(c, events[0]);
      [now] + Run(next, events[1..])
  }

  /** The counter after a sequence of settle events. */
  function After(c: Counter, events: seq<Settle>): Counter
    decreases |events|
  {
    if |events| == 0 then c else After(OnSettle(c, events[0]).0, events[1..])
  }

  function Flatten(effects: seq<seq<Effect>>): seq<Effect>
    decreases |effects|
  {
    if |effects| == 0 then [] else effects[0] + Flatten(effects[1..])
  }

  /** Every event lowers the count by one, whatever its kind. */
  lemma {:induction false} AfterCounts(c: Counter, events: seq<Settle>)
    ensures After(c, events).imagesToLoad == c.imagesToLoad - |events|
    decreases |events|
  {
    if |events| > 0 {
      AfterCounts(OnSettle(c, events[0]).0, events[1..]);
    }
  }

  /** A failed load counts exactly as a successful one: only the number of events matters. */
  lemma {:induction false} RunIgnoresOutcome(c: Counter, a: seq<Settle>, b: seq<Settle>)
    requires |a| == |b|
    ensures Run(c, a) == Run(c, b)
    decreases |a|
  {
    if |a| > 0 {
      RunIgnoresOutcome(OnSettle(c, a[0]).0, a[1..], b[1..]);
    }
  }

  /** The effects of the events before the last request settles are empty. */
  lemma {:induction false} FlattenSilent(effects: seq<seq<Effect>>)
    requires forall i :: 0 <= i < |effects| ==> effects[i] == []
    ensures Flatten(effects) == []
    decreases |effects|
  {
    if |effects| > 0 {
      FlattenSilent(effects[1..]);
    }
  }

  /**
   * Starting from `frameCount` outstanding requests, any `frameCount` settle
   * events (loads and errors in any mix) produce the completion action exactly
   * once, on the last event, and nothing before it.
   */
  lemma ExactlyOnce(frameCount: nat, events: seq<Settle>)
    requires frameCount >= 1 && |events| == frameCount
    ensures forall i :: 0 <= i < frameCount - 1 ==> Run(Start(frameCount), events)[i] == []
    ensures Run(Start(frameCount), events)[frameCount - 1] == Completion
    ensures Flatten(Run(Start(frameCount), events)) == Completion
    ensures After(Start(frameCount), events).imagesToLoad == 0
  {
    var effects := Run(Start(frameCount), events);
    var n := frameCount - 1;
    FlattenSilent(effects[..n]);
    FlattenAppend(effects[..n], [effects[n]]);
    assert effects == effects[..n] + [effects[n]];
    assert Flatten([effects[n]]) == effects[n] + Flatten([]);
    AfterCounts(Start(frameCount), events);
  }

  lemma {:induction false} FlattenAppend(a: seq<seq<Effect>>, b: seq<seq<Effect>>)
    ensures Flatten(a + b) == Flatten(a) + Flatten(b)
    decreases |a|
  {
    if |a| == 0 {
      assert a + b == b;
    } else {
      assert (a + b)[0] == a[0];
      assert (a + b)[1..] == a[1..] + b;
      FlattenAppend(a[1..], b);
    }
  }

  /** Fewer settle events than frames never start the scene. */
  lemma NotBeforeAllSettled(frameCount: nat, events: seq<Settle>)
    requires |events| < frameCount
    ensures Flatten(Run(Start(frameCount), events)) == []
  {
    var effects := Run(Start(frameCount), events);
    FlattenSilent(effects);
  }

  /**
   * The request loop: one image per frame, in order, each fetched from that
   * frame's URL.
   */
  method RequestFrames(frameCount: nat) returns (sources: seq<string>)
    ensures |sources| == frameCount
    ensures forall i :: 0 <= i < frameCount ==> sources[i] == FramePath(i)
  {
    sources := [];
    var i := 0;
    while i < frameCount
      invariant 0 <= i <= frameCount
      invariant |sources| == i
      invariant forall j :: 0 <= j < i ==> sources[j] == FramePath(j)
    {
      var url := FramePath(i);
      assert forall j :: 0 <= j < i ==> (sources + [url])[j] == sources[j];
      sources := sources + [url];
      i := i + 1;
    }
  }

  /** The scene requests `FrameCount` distinct URLs, from `…0000.webp` to `…0379.webp`. */
  method RequestSceneFrames() returns (sources: seq<string>)
    ensures |sources| == FrameCount
    ensures sources[0] == "/Background/Background0000.webp"
    ensures sources[FrameCount - 1] == "/Background/Background0379.webp"
    ensures forall i, j :: 0 <= i < j < |sources| ==> sources[i] != sources[j]
  {
    sources := RequestFrames(FrameCount);
    forall i, j | 0 <= i < j < |sources|
      ensures sources[i] != sources[j]
    {
      if sources[i] == sources[j] {
        FramePathInjective(i, j);
      }
    }
    FirstAndLastPaths();
  }

  /** The first and last frame URLs of the scene. */
  lemma FirstAndLastPaths()
    ensures FramePath(0) == "/Background/Background0000.webp"
    ensures FramePath(FrameCount - 1) == "/Background/Background0379.webp"
  {
    assert ToDecimal(0) == "0";
    assert Repeat('0', 3) == "000";
    assert PaddedIndex(0) == "0000";
    assert ToDecimal(379) == "379" by {
      assert ToDecimal(3) == "3";
      assert ToDecimal(37) == "37";
    }
    assert Repeat('0', 1) == "0";
    assert PaddedIndex(379) == "0379";
  }
}

=== FILE: scene.dfy ===
/**
 * The page as the scroll callback leaves it: the current frame and the style
 * each section was last given. `gsap.set` only changes the properties it is
 * passed, so a section keeps its transform when an update omits it.
 */
module Scene {
  import opened Options
  import FramePaths
  import ScrollMapper
  import CoverFit

  /** The style properties of one section that the page sets. */
  datatype Style = Style(opacity: real, translateZ: real)

  /** The current frame (`videoFrames.frame`) and the four sections' styles. */
  datatype Page = Page(frame: int, nav: Style, header: Style, contents: Style, outro: Style)

  /** `gsap.set(section, update)`: the properties passed change, the others keep their values. */
  function Set(style: Style, u: ScrollMapper.Update): (r: Style)
    ensures r.opacity == u.opacity
    ensures u.translateZ.None? ==> r.translateZ == style.translateZ
    ensures u.translateZ.Some? ==> r.translateZ == u.translateZ.value
  {
    match u.translateZ
    case Some(z) => Style(u.opacity, z)
    case None => Style(u.opacity, style.translateZ)
  }

  /**
   * The page before the first scroll update: frame 0, contents and outro set
   * hidden at depth 0; the nav and header keep whatever the stylesheet gives them.
   */
  function Initial(nav: Style, header: Style): (page: Page)
    ensures page.frame == 0
    ensures page.contents == Style(0.0, 0.0) && page.outro == Style(0.0, 0.0)
  {
    Page(0, nav, header, Style(0.0, 0.0), Style(0.0, 0.0))
  }

  /** One `onUpdate` call applied to the page. */
  function Scroll(page: Page, progress: real): (r: Page)
    ensures r.frame == ScrollMapper.FrameIndex(progress)
    ensures 0.0 <= progress <= 1.0 ==> 0 <= r.frame < FramePaths.FrameCount
    ensures r.nav.translateZ == page.nav.translateZ
    ensures progress > 0.25 ==> r.header == Style(0.0, page.header.translateZ)
    ensures progress <= 0.25 ==>
              r.header == Style(ScrollMapper.HeaderUpdate(progress).opacity,
                                ScrollMapper.HeaderUpdate(progress).translateZ.value)
    ensures r.nav.opacity == ScrollMapper.NavOpacity(progress)
    ensures r.contents == Style(ScrollMapper.ContentsUpdate(progress).opacity,
                                ScrollMapper.ContentsUpdate(progress).translateZ.value)
    ensures r.outro == Style(ScrollMapper.OutroUpdate(progress).opacity,
                             ScrollMapper.OutroUpdate(progress).translateZ.value)
    ensures 0.0 <= progress <= 1.0 ==>
              && 0.0 <= r.nav.opacity <= 1.0 && 0.0 <= r.header.opacity <= 1.0
              && 0.0 <= r.contents.opacity <= 1.0 && 0.0 <= r.outro.opacity <= 1.0
  {
    var s := ScrollMapper.OnUpdate(progress);
    Page(s.frame, Set(page.nav, s.nav), Set(page.header, s.header),
         Set(page.contents, s.contents), Set(page.outro, s.outro))
  }

  /**
   * The callback keeps no history: two pages scrolled to the same progress
   * agree everywhere, except that past 0.25 the header (and always the nav)
   * keep the depth they had.
   */
  lemma ScrollForgetsHistory(a: Page, b: Page, progress: real)
    ensures Scroll(a, progress).frame == Scroll(b, progress).frame
    ensures Scroll(a, progress).contents == Scroll(b, progress).contents
    ensures Scroll(a, progress).outro == Scroll(b, progress).outro
    ensures Scroll(a, progress).nav.opacity == Scroll(b, progress).nav.opacity
    ensures Scroll(a, progress).header.opacity == Scroll(b, progress).header.opacity
    ensures progress <= 0.25 ==> Scroll(a, progress).header == Scroll(b, progress).header
    ensures a.nav.translateZ == b.nav.translateZ && (progress <= 0.25 || a.header.translateZ == b.header.translateZ)
            ==> Scroll(a, progress) == Scroll(b, progress)
  {}

  /** Delivering the same progress twice has the effect of delivering it once. */
  lemma ScrollIdempotent(page: Page, progress: real)
    ensures Scroll(Scroll(page, progress), progress) == Scroll(page, progress)
  {}

  /**
   * Scrolling is a pure function of the latest progress, apart from the
   * header depth past 0.25, which is the depth at the last update that set it.
   */
  lemma LatestProgressWins(page: Page, p: real, q: real)
    ensures Scroll(Scroll(page, p), q).frame == Scroll(page, q).frame
    ensures q <= 0.25 ==> Scroll(Scroll(page, p), q) == Scroll(page, q)
    ensures q > 0.25 && p <= 0.25 ==>
              Scroll(Scroll(page, p), q).header.translateZ == ScrollMapper.HeaderUpdate(p).translateZ.value
  {}

  /**
   * Once every frame has loaded, each scroll update in [0, 1] draws its frame
   * over the whole canvas.
   */
  lemma EveryProgressDraws(images: seq<CoverFit.Image>, page: Page, progress: real,
                           canvasWidth: real, canvasHeight: real)
    requires |images| == FramePaths.FrameCount
    requires forall i :: 0 <= i < |images| ==>
               images[i].complete && images[i].naturalWidth > 0 && images[i].naturalHeight > 0
    requires canvasWidth > 0.0 && canvasHeight > 0.0
    requires 0.0 <= progress <= 1.0
    ensures CoverFit.Render(images, Scroll(page, progress).frame, canvasWidth, canvasHeight).Some?
    ensures CoverFit.Render(images, Scroll(page, progress).frame, canvasWidth, canvasHeight).value.width >= canvasWidth
    ensures CoverFit.Render(images, Scroll(page, progress).frame, canvasWidth, canvasHeight).value.height >= canvasHeight
  {
    var f := Scroll(page, progress).frame;
    assert images[f].complete;
  }
}

=== FILE: scroll_mapper.dfy ===
/**
 * The scroll callback's arithmetic: a scroll progress in [0, 1] selects a
 * frame of the background sequence and drives an (opacity, translateZ) pair
 * for each of the four page sections (nav, header, contents, outro).
 * Everything is a pure function of the progress; nothing depends on earlier
 * calls.
 */
module ScrollMapper {
  import opened Options
  import FramePaths

  /** `Math.round`: the nearest integer, halves rounded up. */
  function Round(x: real): (r: int)
    ensures r as real - 0.5 <= x < r as real + 0.5
  {
    (x + 0.5).Floor
  }

  /** `Round` picks the one integer within half a unit (ties going up). */
  lemma RoundUnique(x: real, k: int)
    requires k as real - 0.5 <= x < k as real + 0.5
    ensures Round(x) == k
  {}

  lemma RoundMonotone(x: real, y: real)
    requires x <= y
    ensures Round(x) <= Round(y)
  {}

  /** The frame shown at a given progress: `Math.round(progress * (frameCount - 1))`. */
  function FrameIndex(progress: real): (frame: int)
    ensures 0.0 <= progress <= 1.0 ==> 0 <= frame < FramePaths.FrameCount
    ensures 0.0 <= progress <= 1.0 ==>
              frame as real - 0.5 <= progress * (FramePaths.FrameCount - 1) as real < frame as real + 0.5
  {
    Round(progress * (FramePaths.FrameCount - 1) as real)
  }

  /** Scrolling further never shows an earlier frame. */
  lemma FrameIndexMonotone(p: real, q: real)
    requires p <= q
    ensures FrameIndex(p) <= FrameIndex(q)
  {}

  lemma FrameIndexEnds()
    ensures FrameIndex(0.0) == 0
    ensures FrameIndex(0.5) == 190
    ensures FrameIndex(1.0) == FramePaths.FrameCount - 1
  {
    RoundUnique(0.0, 0);
    RoundUnique(189.5, 190);
    RoundUnique(379.0, 379);
  }

  // ---------------------------------------------------------------------
  // Reference shapes: a clamped linear ramp and linear interpolation.
  // ---------------------------------------------------------------------

  function Min(a: real, b: real): real {
    if a <= b then a else b
  }

  function Abs(x: real): real {
    if x < 0.0 then -x else x
  }

  function Clamp01(x: real): (r: real)
    ensures 0.0 <= r <= 1.0
  {
    if x < 0.0 then 0.0 else if x > 1.0 then 1.0 else x
  }

  /** The fraction of the way from `start` to `end` the progress is, clamped to [0, 1]. */
  function Ramp(progress: real, start: real, end: real): (r: real)
    requires start < end
    ensures 0.0 <= r <= 1.0
    ensures progress <= start ==> r == 0.0
    ensures progress >= end ==> r == 1.0
  {
    DivisionBounds(progress - start, end - start);
    Clamp01((progress - start) / (end - start))
  }

  lemma DivisionBounds(a: real, d: real)
    requires d > 0.0
    ensures a <= 0.0 ==> a / d <= 0.0
    ensures a >= d ==> a / d >= 1.0
  {}

  /** The point a fraction `t` of the way from `from` to `to`. */
  function Lerp(from: real, to: real, t: real): real {
    from + (to - from) * t
  }

  lemma RampMonotone(p: real, q: real, start: real, end: real)
    requires start < end && p <= q
    ensures Ramp(p, start, end) <= Ramp(q, start, end)
  {
    var d := end - start;
    assert (p - start) / d <= (q - start) / d by {
      assert (q - start) / d - (p - start) / d == (q - p) / d;
    }
  }

  /** A ramp rises by at most `|p - q| / (end - start)` between `p` and `q`. */
  lemma RampLipschitz(p: real, q: real, start: real, end: real)
    requires start < end
    ensures Abs(Ramp(p, start, end) - Ramp(q, start, end)) <= Abs(p - q) / (end - start)
  {
    var d := end - start;
    var u, v := (p - start) / d, (q - start) / d;
    assert u - v == (p - q) / d;
    assert Abs(u - v) == Abs(p - q) / d;
  }

  // ---------------------------------------------------------------------
  // The four sections.
  // ---------------------------------------------------------------------

  /** One `gsap.set` call: an opacity, and a translateZ in px unless the transform is left as it was. */
  datatype Update = Update(opacity: real, translateZ: Option<real>)

  /** Nav fade: from 1 at the top down to 0 at progress 0.1. */
  function NavOpacity(progress: real): (opacity: real)
    ensures progress >= 0.0 ==> opacity == 1.0 - Ramp(progress, 0.0, 0.1)
    ensures 0.0 <= progress ==> 0.0 <= opacity <= 1.0
    ensures progress >= 0.1 ==> opacity == 0.0
  {
    if progress <= 0.1 then 1.0 - progress / 0.1 else 0.0
  }

  /** Header zoom and fade: depth 0 -> 500 over [0, 0.25], opacity 1 until 0.2, then down to 0 at 0.25. */
  function HeaderUpdate(progress: real): (u: Update)
    ensures u.opacity == 1.0 - Ramp(progress, 0.2, 0.25)
    ensures u.translateZ.Some? <==> progress <= 0.25
    ensures progress <= 0.25 ==> u.translateZ == Some(Lerp(0.0, 500.0, progress / 0.25))
    ensures 0.0 <= progress <= 0.25 ==> 0.0 <= u.translateZ.value <= 500.0
  {
    if progress <= 0.25 then
      var zProgress := progress / 0.25;
      var translateZ := zProgress * 500.0;
      var opacity :=
        if progress >= 0.2 then 1.0 - Min((progress - 0.2) / (0.25 - 0.2), 1.0) else 1.0;
      Update(opacity, Some(translateZ))
    else
      Update(0.0, None)
  }

  /**
   * Contents: visible inside the window (0.35, 0.65), fading in over
   * (0.35, 0.4] and out over [0.6, 0.65); its depth runs from -1000 at 0.35
   * to 500 at 0.65 and rests at 500 past the window.
   */
  function ContentsUpdate(progress: real): (u: Update)
    ensures u.opacity == Min(Ramp(progress, 0.35, 0.4), 1.0 - Ramp(progress, 0.6, 0.65))
    ensures u.translateZ == Some(Lerp(-1000.0, 500.0, Min((progress - 0.35) / 0.3, 1.0)))
    ensures 0.0 <= u.opacity <= 1.0
    ensures progress <= 0.35 || progress >= 0.65 ==> u.opacity == 0.0
    ensures 0.4 <= progress <= 0.6 ==> u.opacity == 1.0
  {
    if progress <= 0.65 then
      var scrollProgress := (progress - 0.35) / 0.3;
      var translateZ := -1000.0 + scrollProgress * 1500.0;
      var opacity :=
        if progress > 0.35 && progress <= 0.4 then Min((progress - 0.35) / (0.4 - 0.35), 1.0)
        else if progress > 0.4 && progress < 0.6 then 1.0
        else if progress >= 0.6 && progress < 0.65 then 1.0 - Min((progress - 0.6) / (0.65 - 0.6), 1.0)
        else 0.0;
      Update(opacity, Some(translateZ))
    else
      Update(0.0, Some(500.0))
  }

  /**
   * Outro: hidden (at depth 0) before 0.75; from 0.75 it fades in by 0.8 and
   * its depth runs from -1000 at 0.75 to 0 at 1.
   */
  function OutroUpdate(progress: real): (u: Update)
    ensures u.opacity == Ramp(progress, 0.75, 0.8)
    ensures progress < 0.75 ==> u.translateZ == Some(0.0)
    ensures progress >= 0.75 ==> u.translateZ == Some(Lerp(-1000.0, 0.0, (progress - 0.75) / 0.25))
    ensures 0.75 <= progress <= 1.0 ==> -1000.0 <= u.translateZ.value <= 0.0
  {
    if progress >= 0.75 then
      var scrollProgress := (progress - 0.75) / 0.25;
      var translateZ := -1000.0 + scrollProgress * 1000.0;
      var opacity := if progress <= 0.8 then Min((progress - 0.75) / (0.8 - 0.75), 1.0) else 1.0;
      Update(opacity, Some(translateZ))
    else
      Update(0.0, Some(0.0))
  }

  // Nav --------------------------------------------------------------

  lemma NavNonIncreasing(p: real, q: real)
    requires p <= q
    ensures NavOpacity(q) <= NavOpacity(p)
  {}

  /** Over the fade the nav gets strictly fainter, from 1 at the top. */
  lemma NavFadesStrictly(p: real, q: real)
    requires 0.0 <= p < q <= 0.1
    ensures NavOpacity(q) < NavOpacity(p)
    ensures NavOpacity(0.0) == 1.0
  {}

  /** The nav opacity changes by at most 10 per unit of progress, so it is continuous (also at 0.1). */
  lemma NavContinuous(p: real, q: real)
    ensures Abs(NavOpacity(p) - NavOpacity(q)) <= 10.0 * Abs(p - q)
  {}

  // Header -----------------------------------------------------------

  lemma HeaderOpacityNonIncreasing(p: real, q: real)
    requires p <= q
    ensures HeaderUpdate(q).opacity <= HeaderUpdate(p).opacity
  {}

  /** The header opacity is 20-Lipschitz: continuous at 0.2 and at 0.25. */
  lemma HeaderOpacityContinuous(p: real, q: real)
    ensures Abs(HeaderUpdate(p).opacity - HeaderUpdate(q).opacity) <= 20.0 * Abs(p - q)
  {}

  /** While the header is transformed, it moves strictly towards the viewer, from 0 at the top to 500 at 0.25. */
  lemma HeaderDepthIncreasing(p: real, q: real)
    requires p < q <= 0.25
    ensures HeaderUpdate(p).translateZ.value < HeaderUpdate(q).translateZ.value
    ensures HeaderUpdate(0.0).translateZ == Some(0.0)
    ensures HeaderUpdate(0.25).translateZ == Some(500.0)
  {
    assert p / 0.25 < q / 0.25;
  }

  // Contents ---------------------------------------------------------

  /** The contents fade in up to the middle of the window and out after it. */
  lemma ContentsOpacityRisesThenFalls(p: real, q: real)
    requires p <= q
    ensures q <= 0.5 ==> ContentsUpdate(p).opacity <= ContentsUpdate(q).opacity
    ensures 0.5 <= p ==> ContentsUpdate(q).opacity <= ContentsUpdate(p).opacity
  {}

  /** The contents opacity is 20-Lipschitz: continuous at 0.35, 0.4, 0.6 and 0.65. */
  lemma ContentsOpacityContinuous(p: real, q: real)
    ensures Abs(ContentsUpdate(p).opacity - ContentsUpdate(q).opacity) <= 20.0 * Abs(p - q)
  {}

  /** The contents never move away from the viewer; their depth is -1000 at 0.35 and 500 from 0.65 on. */
  lemma ContentsDepthNonDecreasing(p: real, q: real)
    requires p <= q
    ensures ContentsUpdate(p).translateZ.value <= ContentsUpdate(q).translateZ.value
    ensures ContentsUpdate(0.35).translateZ == Some(-1000.0)
    ensures q >= 0.65 ==> ContentsUpdate(q).translateZ == Some(500.0)
  {}

  /** The contents depth is 5000-Lipschitz: no jump where the window closes at 0.65. */
  lemma ContentsDepthContinuous(p: real, q: real)
    ensures Abs(ContentsUpdate(p).translateZ.value - ContentsUpdate(q).translateZ.value) <= 5000.0 * Abs(p - q)
  {}

  // Outro ------------------------------------------------------------

  lemma OutroOpacityNonDecreasing(p: real, q: real)
    requires p <= q
    ensures OutroUpdate(p).opacity <= OutroUpdate(q).opacity
  {}

  /** The outro opacity is 20-Lipschitz: continuous at 0.75 and 0.8. */
  lemma OutroOpacityContinuous(p: real, q: real)
    ensures Abs(OutroUpdate(p).opacity - OutroUpdate(q).opacity) <= 20.0 * Abs(p - q)
  {}

  /**
   * Once shown, the outro moves towards the viewer, from -1000 at 0.75 to 0
   * at the end. Its depth jumps at 0.75 (from the resting 0 to -1000) while
   * it is fully transparent on both sides of the jump.
   */
  lemma OutroDepth(p: real, q: real)
    requires 0.75 <= p < q
    ensures OutroUpdate(p).translateZ.value < OutroUpdate(q).translateZ.value
    ensures OutroUpdate(0.75) == Update(0.0, Some(-1000.0))
    ensures OutroUpdate(1.0) == Update(1.0, Some(0.0))
  {}

  /** Everything one `onUpdate` call sets. */
  datatype SceneUpdate = SceneUpdate(frame: int, nav: Update, header: Update, contents: Update, outro: Update)

  /** `onUpdate`: the frame to draw and the four section updates for a progress value. */
  function OnUpdate(progress: real): (s: SceneUpdate)
    ensures s.nav.translateZ.None?
    ensures s.contents.translateZ.Some? && s.outro.translateZ.Some?
    ensures 0.0 <= progress <= 1.0 ==> 0 <= s.frame < FramePaths.FrameCount
    ensures 0.0 <= progress <= 1.0 ==>
              && 0.0 <= s.nav.opacity <= 1.0 && 0.0 <= s.header.opacity <= 1.0
              && 0.0 <= s.contents.opacity <= 1.0 && 0.0 <= s.outro.opacity <= 1.0
  {
    SceneUpdate(FrameIndex(progress), Update(NavOpacity(progress), None),
                HeaderUpdate(progress), ContentsUpdate(progress), OutroUpdate(progress))
  }

  /** At the top of the scroll: first frame, nav and header fully shown, contents hidden. */
  lemma SceneAtTop()
    ensures OnUpdate(0.0) == SceneUpdate(0, Update(1.0, None), Update(1.0, Some(0.0)),
                                         Update(0.0, Some(-2750.0)), Update(0.0, Some(0.0)))
  {
    FrameIndexEnds();
  }

  /** Halfway: frame 190 and the contents fully visible, everything else hidden. */
  lemma SceneHalfway()
    ensures OnUpdate(0.5) == SceneUpdate(190, Update(0.0, None), Update(0.0, None),
                                         Update(1.0, Some(-250.0)), Update(0.0, Some(0.0)))
  {
    FrameIndexEnds();
  }

  /** At the end: last frame, contents at rest and hidden, outro fully shown at depth 0. */
  lemma SceneAtEnd()
    ensures OnUpdate(1.0) == SceneUpdate(379, Update(0.0, None), Update(0.0, None),
                                         Update(0.0, Some(500.0)), Update(1.0, Some(0.0)))
  {
    FrameIndexEnds();
  }
}
